=== FILE: README.md ===
# Product catalog core: commercial names, custom fields and assignments

This project models the logic of a small Flask/SQLite product catalog
(`app.py`) and proves properties of that model in Dafny. The SQLite tables
become immutable maps keyed by id, and every route becomes a pure
state-transition function (or a method, where the source loops) with a
`Result` for its error paths. The model covers:

- **Commercial-name derivation** (`CommercialName`). This is the active
  `gerar_nome_comercial`. It joins categoria, marca, modelo, cor,
  faixa_etaria and genero with single spaces and strips the result. When
  nothing is left it uses `"Sem Informações"`.
- **Stripping** (`Text`). This is Python's `str.strip()` over the ASCII
  characters Python counts as whitespace.
- **Schema set-up** (`Schema`). This is `init_db`: each `CREATE TABLE IF
  NOT EXISTS` keeps a table that already exists. The additive column
  migration of `products` never drops a column.
- **Custom-field store** (`Store`). It holds the products, custom_fields,
  custom_values and product_custom_field_values tables. The operations are
  create field, edit field, add value, edit value and the cascading field
  delete.
- **Assignments** (`Linker`). These are the single upsert of
  `atualizar_valor` and the batch of `salvar_todos`.
- **Name columns** (`Names`). These are the regeneration of every name in
  `atualizar_nome_comercial` and the batch overwrite of
  `salvar_tabela_produtos`.
- **Catalog grouping** (`Catalog`). This is the per-field grouping of the
  custom values in the `produtos` view, in read order.

Ids and texts from requests are modelled per route, as the route's checks
and SQLite's binding treat them:

- Form texts are `Option<string>`: `None` means the form did not send the
  key, and a text that is sent, even empty, is `Some`.
- `atualizar_valor` reads its three ids as form texts. `None` is a missing
  key or the empty text, which the route's truth test rejects. `Some(k)` is
  a whole-number text below 2^63, which the INTEGER column stores as `k`;
  `"0"` passes the truth test and is `Some(0)`.
- `salvar_todos` reads JSON values (`Linker.IdArg`). `Falsy` is absent,
  `null`, `false`, `0`, `""`, `[]` or `{}`; such an item is skipped. `Id(k)`
  is a true whole number below 2^63, `true`, or a numeric text the column
  stores as `k` (`Common.BoundId`). `Unbindable` is a non-empty list or
  object, or an integer outside the signed 64-bit range: it passes the
  truth test, sqlite3 cannot bind it (an integer that wide raises
  OverflowError), and the whole batch is rolled back. An item that is not an object also rolls the batch
  back.
- `salvar_tabela_produtos` never tests `produto_id` for truth
  (`Names.RowRef`). `NoRow` matches no row: it is absent, `null` or `NaN`,
  bound as NULL; an integer from -2^63 to -1, a fraction, an infinity or a
  float of 2^63 or more; or a text that is no whole number below 2^63. `Row(k)` is a whole number below
  2^63, a boolean or a numeric text such as `"5"`, which matches row `k`
  (`0` and `false` give `WHERE id = 0`). `Unbindable` is a list or object,
  or an integer outside the signed 64-bit range. It rolls the batch back only when the
  entry's name is not blank, since only then is the UPDATE run.

Behaviours of the code that are easy to misread; the model follows the code:

- `editar_campo` does not strip the new name, so a name made only of
  whitespace is accepted. A POST for an id with no row succeeds and changes
  nothing; there is no not-found error.
- `editar_valor` behaves the same way: a POST for a value id with no row
  succeeds and changes nothing (app.py:296-303), and the text is not
  stripped.
- `salvar_todos` reports no count of accepted entries. It only applies the
  complete entries.
- `salvar_tabela_produtos` reports `len(produtos)` as the number updated,
  whether or not an entry changed a row. A `null` name, an entry that is not
  an object, or an id that cannot be bound raises inside the transaction, so
  the whole batch is rolled back rather than skipped.
- `custom_fields` has two conflicting declarations, and only the first has a
  `tipo` column. A database whose table came from the second declaration
  keeps it, and there the INSERT of `custom_fields` and the UPDATE of
  `editar_campo` fail (`Db.fieldsHaveTipo`, `Schema.FieldsTipoColumn`).
- The fallback name is used when the stripped join is empty, that is, when
  all six attributes are blank. They need not be literally empty.

## Model

| member | source | states |
|---|---|---|
| Text.Strip | app.py:177 | The stripped text has no whitespace at either end, and it is empty exactly when the input is all whitespace |
| Text.StripIsCore | app.py:192-196 | Stripping only removes whitespace at the ends: the result is a contiguous slice of the input with nothing but whitespace before and after it |
| Text.StripIdempotent | app.py:495 | Stripping an already stripped text changes nothing |
| CommercialName.Derive | app.py:175-179 | The commercial name is never empty; it is the fallback "Sem Informações" when all six attributes are blank, and otherwise a text with no whitespace at its ends |
| CommercialName.DeriveIsCoreOfJoin | app.py:177 | When some attribute is not blank, the name is the space-separated join of the six attributes in order, minus only its outer whitespace |
| CommercialName.JoinedBlank | app.py:177-179 | The join is blank if and only if each of the six attributes is blank |
| CommercialName.FallbackExactlyWhenBlank | app.py:177-179 | The fallback is chosen exactly when all six attributes are blank; otherwise the name is the stripped join |
| CommercialName.InnerBlanksKept | app.py:177 | Blank inner attributes are neither dropped nor replaced by a placeholder: with non-space outer ends the name is the join itself, double spaces included |
| CommercialName.ExampleWithBlanks | app.py:175-179 | ("Shoes", "Acme", "", "Red", "", "Unisex") is named "Shoes Acme  Red  Unisex" |
| CommercialName.ExampleAllEmpty | app.py:179 | Six empty attributes give "Sem Informações" |
| Schema.MigrateColumns | app.py:48-54 | The loop appends exactly the required columns not already present, in required order; afterwards every required column exists and no existing column is lost or duplicated |
| Schema.MigrateIdempotent | app.py:48-54 | After one migration nothing is missing, so a second migration adds nothing |
| Schema.EnsureProducts | app.py:31-54 | The products step adds the products table if absent and changes no other table |
| Schema.CreateCustomTables | app.py:61-112 | The custom tables are created only when absent; a table that already exists is kept as it is, and a fresh database gets the first declaration of each |
| Schema.InitDbMigrates | app.py:27-113 | After init_db every required column is on products, all earlier products columns remain, and every other existing table is unchanged |
| Schema.InitDbIdempotent | app.py:27-113 | Running init_db a second time changes nothing |
| Schema.FieldsAfterInit | app.py:72-87 | After init_db custom_fields is the table found, or the first declaration when there was none |
| Schema.FieldsTipoColumn | app.py:72-87 | After init_db custom_fields has a tipo column exactly when init_db created it or the table found had one; the second declaration has none |
| Schema.FirstDeclarationWins | app.py:61-112 | Of the two conflicting declarations of custom_fields and of the assignment table, the first wins on a fresh database, and both assignment declarations are unique per (produto_id, campo_id) |
| Store.CreateField | app.py:189-200 | A missing or whitespace-only name is refused and nothing changes; a table without its tipo column makes SQLite refuse the INSERT; otherwise exactly one field is added under a fresh id, carrying the stripped (non-empty, trimmed) submitted name and the submitted type or "manual", and no other field changes |
| Store.CreateFieldValid | app.py:192-196 | On a table with its tipo column a present, non-blank name is always accepted, and creating the field keeps ids below the AUTOINCREMENT counters and values attached to existing fields, and grows the table by exactly one |
| Store.EditField | app.py:214-239 | An empty or missing name or type is refused; a table without its tipo column makes the UPDATE fail whatever the id; otherwise the field with that id, if any, gets the new name and type verbatim, and no other row or table changes |
| Store.AddValue | app.py:341-355 | An unknown field is reported as not found and an empty value as a validation error; otherwise exactly one value of that field is added under a fresh id and nothing else changes |
| Store.EditValue | app.py:294-300 | An empty value is refused; otherwise the value with that id, if any, gets the new text and stays with its field, and nothing else changes |
| Store.DeleteField | app.py:325-327 | After deleting field c no field row, value or assignment refers to c; exactly the rows of c are removed, every other row keeps its content, and validity is preserved |
| Store.DeleteFieldCounts | app.py:325-327 | The delete removes exactly as many values and assignments as belonged to the field, and at most the one field row |
| Linker.Upsert | app.py:414-450 | A missing id is refused and leaves the assignments unchanged; otherwise afterwards the (produto, campo) pair has exactly one assignment carrying the new value, and every other pair is unchanged |
| Linker.UpsertIdempotent | app.py:428-450 | Repeating the same upsert changes nothing more |
| Linker.UpsertLastWins | app.py:428-450 | Two upserts of the same pair amount to the later one alone |
| Linker.UpsertDoesNotCheckOwnership | app.py:420-450 | The upsert stores a value id that belongs to another field, or a field id with no row |
| Linker.SaveAll | app.py:464-481 | The batch is rolled back exactly when some item is not an object or has three true ids one of which cannot be bound, and the first such item decides the error; otherwise each pair carries the value of the last complete item naming it, items with a false id are skipped, pairs named by no complete item keep their value, and no other table changes |
| Names.RenamedKeepsRow | app.py:255-270 | Regenerating a row's name changes no other column and always writes a non-empty name |
| Names.RenamedIdempotent | app.py:255-270 | The name depends only on the six attributes, so regenerating twice equals regenerating once |
| Names.RenamedBlank | app.py:257-265 | A row whose six attributes are all NULL or blank gets "Sem Informações" |
| Names.RenameRows | app.py:255-271 | The loop gives every row read the name derived from its attributes, whatever order it visits them in, and counts each row once |
| Names.RegenerateNames | app.py:248-276 | Every product gets the name derived from its attributes (NULL read as ""), no other column, row or table changes, and the reported total is the number of products |
| Names.SaveNames | app.py:488-516 | The batch fails as a whole exactly when some entry is not an object, has a name that is not a string, or has a non-blank name with an id that cannot be bound, and the first such entry decides the error; otherwise each product ends with the stripped name of its last entry with a non-blank name, products without such an entry are unchanged, and the reported count is the number of entries |
| Names.LastNameIsTrimmed | app.py:495-503 | The batch only ever writes non-empty names without whitespace at the ends |
| Catalog.GroupValues | app.py:382-389 | The grouping has one key per field that occurs in the read, each field's list is its values in read order, and fields are listed in the order of their first value |
| Catalog.GroupedCount | app.py:385-389 | A grouping as GroupValues returns it holds exactly as many entries as rows were read: no row is lost or duplicated |
| Catalog.ValuesOfFieldMembers | app.py:385-389 | Each value appears in its own field's list, and a field's list holds only values of that field |
| Catalog.TotalGroupedIsRowCount | app.py:385-389 | Over distinct fields that cover every row, the list lengths add up to the number of rows: grouping loses and duplicates nothing |
| Catalog.GroupingExample | app.py:385-389 | Rows (1,10,A), (2,11,B), (1,12,C) group to field 1: [10 A, 12 C] and field 2: [11 B] |

## Left out

- Flask routing, templates, `flash`, `redirect`, `jsonify`, status codes and the `print` logging. These are web plumbing; only the validations and effects behind them are modelled.
- SQLite connections, SQL text and commit/rollback. Each route's transaction is one state transition, and a rolled-back batch returns an error with no new state.
- Failures of the engine itself, such as a locked or unreadable database file or a full disk. They are outside the data the model represents. UNIQUE conflicts on the pair cannot arise, because the assignment table is keyed by pair and the upsert never inserts a pair that exists.
- Schema.MigrateColumns: a products column that differs from a required one only in letter case, such as `Categoria`, is not modelled. The membership test at app.py:53 is case-sensitive, but SQLite column names are not, so the ALTER at app.py:54 fails as a duplicate column and `init_db`, which has no handler, raises. The model compares names exactly and appends the column.
- A JSON body that is not an object, a missing `valores`, or a `valores` or `produtos` that is a number, a boolean or `null`. The route then fails before any statement, so the database is unchanged and only the error response differs. The other shapes are modelled: a missing `produtos` reads as the empty list (app.py:488), an empty string or object given instead of a list is iterated as an empty batch, and a non-empty one is iterated as characters or keys, which are items that are not objects.
- `processar_xml` (app.py:120-160). It is XML parsing through ElementTree plus `float()` conversions, and both are foreign code and floating point.
- The first `gerar_nome_comercial` (app.py:162-173). It is rebound by the definition at line 175 and never runs.
- `static/js/scripts.js`. It is DOM manipulation and `fetch` calls with no self-contained logic.
- The GET views and listings (`index`, the SELECTs of `custom_fields`, `custom_field_values` and `produtos` apart from the grouping). They only read and render.
- The invoice columns of products (ncm, cfop, quantities, prices, taxes). No modelled operation reads or writes them.
- The order of rows returned by a SELECT without ORDER BY. It is the engine's choice, so it is an input: `GroupValues` takes the rows as a sequence, and `RegenerateNames` visits products in an arbitrary order (its result does not depend on it).
- The surrogate `id` column of the first assignment-table declaration. No operation reads it, so the table is a map from (produto_id, campo_id) to valor_id.
- Negative ids, fractions, and numeric texts outside the signed 64-bit range in `atualizar_valor` and `salvar_todos`, such as `"-1"`, `-1`, `2.5`, `"99999999999999999999"` or `"abc"`. They pass the truth test at app.py:420 and app.py:471, and SQLite stores them as an integer, a REAL or text. The model reads a given id as a whole number `k` below 2^63 (`Common.BoundId`). A JSON integer outside the signed 64-bit range is modelled: in `salvar_todos` it is unbindable and rolls the batch back.
- Non-finite JSON numbers (`NaN`, `Infinity`, `-Infinity`), which Python's `json` accepts, in `salvar_todos`. They pass the truth test at app.py:471. SQLite binds `NaN` as NULL, which breaks the NOT NULL columns of the assignment table, so the batch is rolled back; an infinity is stored as a REAL. In `salvar_tabela_produtos` they are modelled, as ids that match no row.
- Text.Strip: whitespace is the ASCII set Python's `str.strip()` removes; the non-ASCII Unicode whitespace it also removes is not modelled.

=== FILE: catalog.dfy ===
/** The grouping of custom values in the catalog view (produtos): the flat
    read of custom_values becomes, per field, the list of its values. */
module Catalog {
  import opened Common

  /** A row of the read "SELECT campo_id, id, valor FROM custom_values". */
  datatype ValueRow = ValueRow(campoId: nat, id: nat, valor: string)

  /** One entry of a field's list: {"id": valor_id, "valor": valor}. */
  datatype Choice = Choice(id: nat, valor: string)

  function ChoiceOf(row: ValueRow): Choice {
    Choice(row.id, row.valor)
  }

  /** The fields that occur in the rows. */
  function FieldIds(rows: seq<ValueRow>): set<nat> {
    set i | 0 <= i < |rows| :: rows[i].campoId
  }

  /** The choices of field k, in read order. */
  function ValuesOfField(rows: seq<ValueRow>, k: nat): (r: seq<Choice>)
    ensures |r| <= |rows|
  {
    if rows == [] then []
    else
      var last := rows[|rows| - 1];
      ValuesOfField(rows[..|rows| - 1], k) + (if last.campoId == k then [ChoiceOf(last)] else [])
  }

  /** Adding a row adds its field to the field set. */
  lemma FieldIdsSnoc(rows: seq<ValueRow>, x: ValueRow)
    ensures FieldIds(rows + [x]) == FieldIds(rows) + {x.campoId}
  {
    var s := rows + [x];
    forall k | k in FieldIds(s) ensures k in FieldIds(rows) + {x.campoId} {
      var i :| 0 <= i < |s| && s[i].campoId == k;
      if i < |rows| { assert rows[i] == s[i]; }
    }
    forall k | k in FieldIds(rows) ensures k in FieldIds(s) {
      var i :| 0 <= i < |rows| && rows[i].campoId == k;
      assert s[i] == rows[i];
    }
    assert s[|rows|] == x;
  }

  /** The position of the first row of field k. */
  function FirstIndex(rows: seq<ValueRow>, k: nat): (r: nat)
    requires k in FieldIds(rows)
    ensures r < |rows| && rows[r].campoId == k
    ensures forall j :: 0 <= j < r ==> rows[j].campoId != k
  {
    var n := |rows| - 1;
    FieldIdsSnoc(rows[..n], rows[n]);
    assert rows[..n] + [rows[n]] == rows;
    if k in FieldIds(rows[..n]) then
      var r := FirstIndex(rows[..n], k);
      assert rows[r] == rows[..n][r];
      assert forall j :: 0 <= j < r ==> rows[j] == rows[..n][j];
      r
    else
      assert forall j :: 0 <= j < n ==> rows[j] == rows[..n][j];
      n
  }

  /** The index and order built from a prefix of the read, as the loop keeps them. */
  ghost predicate GroupedAs(prefix: seq<ValueRow>, index: map<nat, seq<Choice>>, order: seq<nat>) {
    && index.Keys == FieldIds(prefix)
    && (forall k :: k in index ==> index[k] == ValuesOfField(prefix, k))
    && (forall k :: k in order <==> k in index)
    && (forall i, j :: 0 <= i < j < |order| ==>
          order[i] in FieldIds(prefix) && order[j] in FieldIds(prefix) &&
          FirstIndex(prefix, order[i]) < FirstIndex(prefix, order[j]))
  }

  /** The grouping loop of produtos: for each row in read order, start an
      empty list for its field the first time the field is seen, then
      append the row's choice.  Returns the map and the fields in the order
      they were first seen (the insertion order of the Python dict).
      GroupedCount adds that the lists hold as many entries as rows were read. */
  method GroupValues(rows: seq<ValueRow>) returns (index: map<nat, seq<Choice>>, order: seq<nat>)
    ensures index.Keys == FieldIds(rows)
    ensures forall k :: k in index ==> index[k] == ValuesOfField(rows, k)
    ensures forall k :: k in order <==> k in index
    ensures forall i, j :: 0 <= i < j < |order| ==>
      order[i] in FieldIds(rows) && order[j] in FieldIds(rows) &&
      FirstIndex(rows, order[i]) < FirstIndex(rows, order[j])
  {
    index := map[];
    order := [];
    var n := 0;
    ghost var done: seq<ValueRow> := [];
    while n < |rows|
      invariant 0 <= n <= |rows|
      invariant done == rows[..n]
      invariant GroupedAs(done, index, order)
    {
      var row := rows[n];
      GroupStep(done, row, index, order);
      if row.campoId !in index {
        index := index[row.campoId := []];
        order := order + [row.campoId];
      }
      index := index[row.campoId := index[row.campoId] + [ChoiceOf(row)]];
      SliceSnoc(rows, n);
      done := done + [row];
      n := n + 1;
    }
    assert done == rows;
  }


  /** A grouping as GroupValues returns it loses and duplicates no row:
      its lists add up to the number of rows read. */
  lemma GroupedCount(rows: seq<ValueRow>, index: map<nat, seq<Choice>>, order: seq<nat>)
    requires GroupedAs(rows, index, order)
    ensures TotalGrouped(rows, order) == |rows|
  {
    OrderDistinct(rows, order);
    TotalGroupedIsRowCount(rows, order);
  }

  /** The first-seen order lists each field once. */
  lemma OrderDistinct(rows: seq<ValueRow>, order: seq<nat>)
    requires forall i, j :: 0 <= i < j < |order| ==>
      order[i] in FieldIds(rows) && order[j] in FieldIds(rows) &&
      FirstIndex(rows, order[i]) < FirstIndex(rows, order[j])
    ensures forall i, j :: 0 <= i < j < |order| ==> order[i] != order[j]
  {
  }

  /** One turn of the grouping loop keeps the index and order right for the longer prefix. */
  lemma GroupStep(prefix: seq<ValueRow>, x: ValueRow, index: map<nat, seq<Choice>>, order: seq<nat>)
    requires GroupedAs(prefix, index, order)
    ensures var k := x.campoId;
      var started := if k in index then index else index[k := []];
      GroupedAs(prefix + [x],
                started[k := started[k] + [ChoiceOf(x)]],
                if k in index then order else order + [x.campoId])
  {
    var k := x.campoId;
    var started := if k in index then index else index[k := []];
    var index' := started[k := started[k] + [ChoiceOf(x)]];
    var order' := if k in index then order else order + [k];
    StepIndex(prefix, x, index, index');
    StepOrder(prefix, x, index, order, order');
  }

  /** The index after one more row: one more field at most, one more choice. */
  lemma StepIndex(prefix: seq<ValueRow>, x: ValueRow, index: map<nat, seq<Choice>>, index': map<nat, seq<Choice>>)
    requires index.Keys == FieldIds(prefix)
    requires forall k :: k in index ==> index[k] == ValuesOfField(prefix, k)
    requires var k := x.campoId;
      var started := if k in index then index else index[k := []];
      index' == started[k := started[k] + [ChoiceOf(x)]]
    ensures index'.Keys == FieldIds(prefix + [x])
    ensures forall k :: k in index' ==> index'[k] == ValuesOfField(prefix + [x], k)
  {
    var k := x.campoId;
    assert (prefix + [x])[..|prefix|] == prefix;
    FieldIdsSnoc(prefix, x);
    forall j | j in index'
      ensures index'[j] == ValuesOfField(prefix + [x], j)
    {
      assert ValuesOfField(prefix + [x], j)
          == ValuesOfField(prefix, j) + (if k == j then [ChoiceOf(x)] else []);
      if j == k && k !in index {
        AbsentFieldHasNoValues(prefix, k);
      }
    }
  }

  /** The order after one more row: a new field goes last, as its first row is the latest. */
  lemma StepOrder(prefix: seq<ValueRow>, x: ValueRow, index: map<nat, seq<Choice>>, order: seq<nat>, order': seq<nat>)
    requires index.Keys == FieldIds(prefix)
    requires forall k :: k in order <==> k in index
    requires forall i, j :: 0 <= i < j < |order| ==>
      order[i] in FieldIds(prefix) && order[j] in FieldIds(prefix) &&
      FirstIndex(prefix, order[i]) < FirstIndex(prefix, order[j])
    requires order' == if x.campoId in index then order else order + [x.campoId]
    ensures forall k :: k in order' <==> k in FieldIds(prefix + [x])
    ensures forall i, j :: 0 <= i < j < |order'| ==>
      order'[i] in FieldIds(prefix + [x]) && order'[j] in FieldIds(prefix + [x]) &&
      FirstIndex(prefix + [x], order'[i]) < FirstIndex(prefix + [x], order'[j])
  {
    var k := x.campoId;
    var n := |prefix|;
    assert (prefix + [x])[..n] == prefix;
    FieldIdsSnoc(prefix, x);
    forall j | j in FieldIds(prefix)
      ensures FirstIndex(prefix + [x], j) == FirstIndex(prefix, j) && FirstIndex(prefix, j) < n
    {
    }
    if k !in index {
      assert FirstIndex(prefix + [x], k) == n;
      forall i, j | 0 <= i < j < |order'|
        ensures FirstIndex(prefix + [x], order'[i]) < FirstIndex(prefix + [x], order'[j])
      {
        if j == |order| {
          assert order'[i] == order[i];
        } else {
          assert order'[i] == order[i] && order'[j] == order[j];
        }
      }
    }
  }

  /** Every row's choice is listed under its own field, and a field's list
      holds only choices of rows of that field. */
  lemma {:induction false} ValuesOfFieldMembers(rows: seq<ValueRow>, k: nat)
    ensures forall i :: 0 <= i < |rows| && rows[i].campoId == k ==> ChoiceOf(rows[i]) in ValuesOfField(rows, k)
    ensures forall c :: c in ValuesOfField(rows, k) ==>
      exists i :: 0 <= i < |rows| && rows[i].campoId == k && ChoiceOf(rows[i]) == c
  {
    if rows != [] {
      var n := |rows| - 1;
      ValuesOfFieldMembers(rows[..n], k);
      forall i | 0 <= i < n ensures rows[i] == rows[..n][i] { }
    }
  }

  /** A field with no row has an empty list. */
  lemma AbsentFieldHasNoValues(rows: seq<ValueRow>, k: nat)
    requires k !in FieldIds(rows)
    ensures ValuesOfField(rows, k) == []
  {
    ValuesOfFieldMembers(rows, k);
  }

  /** Number of times k occurs in ks. */
  function Occurrences(ks: seq<nat>, k: nat): nat {
    if ks == [] then 0 else (if ks[0] == k then 1 else 0) + Occurrences(ks[1..], k)
  }

  /** The total length of the lists of the fields ks. */
  function TotalGrouped(rows: seq<ValueRow>, ks: seq<nat>): nat {
    if ks == [] then 0 else |ValuesOfField(rows, ks[0])| + TotalGrouped(rows, ks[1..])
  }

  /** A row adds one entry to the total for each time its field is listed. */
  lemma {:induction false} TotalGroupedSnoc(rows: seq<ValueRow>, x: ValueRow, ks: seq<nat>)
    ensures TotalGrouped(rows + [x], ks) == TotalGrouped(rows, ks) + Occurrences(ks, x.campoId)
  {
    if ks != [] {
      TotalGroupedSnoc(rows, x, ks[1..]);
      assert (rows + [x])[..|rows|] == rows;
    }
  }

  /** A field listed without repetition occurs once. */
  lemma {:induction false} OccursOnce(ks: seq<nat>, k: nat)
    requires forall i, j :: 0 <= i < j < |ks| ==> ks[i] != ks[j]
    ensures Occurrences(ks, k) == (if k in ks then 1 else 0)
  {
    if ks != [] {
      OccursOnce(ks[1..], k);
      if ks[0] == k {
        assert k !in ks[1..] by {
          forall i | 0 <= i < |ks[1..]| ensures ks[1..][i] != k {
            assert ks[1..][i] == ks[i + 1];
          }
        }
      } else {
        assert k in ks <==> k in ks[1..];
      }
    }
  }

  /** Grouping loses and duplicates nothing: over distinct fields covering
      every row, the lists add up to the number of rows read. */
  lemma {:induction false} TotalGroupedIsRowCount(rows: seq<ValueRow>, ks: seq<nat>)
    requires forall i, j :: 0 <= i < j < |ks| ==> ks[i] != ks[j]
    requires FieldIds(rows) <= set k | k in ks
    ensures TotalGrouped(rows, ks) == |rows|
  {
    if rows == [] {
      TotalGroupedEmpty(ks);
    } else {
      var n := |rows| - 1;
      assert rows[..n] + [rows[n]] == rows;
      FieldIdsSnoc(rows[..n], rows[n]);
      TotalGroupedIsRowCount(rows[..n], ks);
      TotalGroupedSnoc(rows[..n], rows[n], ks);
      OccursOnce(ks, rows[n].campoId);
    }
  }

  lemma {:induction false} TotalGroupedEmpty(ks: seq<nat>)
    ensures TotalGrouped([], ks) == 0
  {
    if ks != [] {
      TotalGroupedEmpty(ks[1..]);
    }
  }

  /** The worked example: field 1 keeps its two values in read order. */
  lemma GroupingExample()
    ensures var rows := [ValueRow(1, 10, "A"), ValueRow(2, 11, "B"), ValueRow(1, 12, "C")];
      && ValuesOfField(rows, 1) == [Choice(10, "A"), Choice(12, "C")]
      && ValuesOfField(rows, 2) == [Choice(11, "B")]
  {
    var rows := [ValueRow(1, 10, "A"), ValueRow(2, 11, "B"), ValueRow(1, 12, "C")];
    assert rows[..2][..1] == [ValueRow(1, 10, "A")];
    assert rows[..2] == [ValueRow(1, 10, "A"), ValueRow(2, 11, "B")];
  }
}

=== FILE: commercial_name.dfy ===
/** The commercial name of a product: the active gerar_nome_comercial of
    app.py, which joins six attributes with single spaces, strips the ends
    and falls back to a fixed text when nothing is left. */
module CommercialName {
  import opened Text

  /** The six attributes the name is derived from, in the order they are joined. */
  datatype Attributes = Attributes(
    categoria: string,
    marca: string,
    modelo: string,
    cor: string,
    faixaEtaria: string,
    genero: string)

  /** The name given to a product whose six attributes are all blank. */
  const Fallback: string := "Sem Informações"

  /** The six attributes joined by single spaces, before stripping. */
  function Joined(a: Attributes): string {
    a.categoria + " " + a.marca + " " + a.modelo + " " + a.cor + " " + a.faixaEtaria + " " + a.genero
  }

  /** True when every one of the six attributes is empty or whitespace. */
  predicate AllBlank(a: Attributes) {
    IsBlank(a.categoria) && IsBlank(a.marca) && IsBlank(a.modelo)
    && IsBlank(a.cor) && IsBlank(a.faixaEtaria) && IsBlank(a.genero)
  }

  /** The commercial name: the stripped join, or the fallback when that is empty. */
  function Derive(a: Attributes): (r: string)
    ensures r != []
    ensures AllBlank(a) ==> r == Fallback
    ensures !AllBlank(a) ==> IsTrimmed(r)
  {
    JoinedBlank(a);
    var name := Strip(Joined(a));
    if name == [] then Fallback else name
  }

  /** When some attribute is not blank, the name is the join with only its
      outer whitespace removed: no attribute is dropped, replaced or reordered. */
  lemma DeriveIsCoreOfJoin(a: Attributes)
    requires !AllBlank(a)
    ensures IsCoreOf(Derive(a), Joined(a))
  {
    JoinedBlank(a);
    StripIsCore(Joined(a));
  }

  /** The join is blank exactly when each of the six attributes is. */
  lemma JoinedBlank(a: Attributes)
    ensures IsBlank(Joined(a)) <==> AllBlank(a)
  {
    assert IsSpace(' ');
    var sp := " ";
    var j1 := a.categoria + sp;
    var j2 := j1 + a.marca + sp;
    var j3 := j2 + a.modelo + sp;
    var j4 := j3 + a.cor + sp;
    var j5 := j4 + a.faixaEtaria + sp;
    BlankConcat(a.categoria, sp);
    BlankConcat(j1, a.marca);
    BlankConcat(j1 + a.marca, sp);
    BlankConcat(j2, a.modelo);
    BlankConcat(j2 + a.modelo, sp);
    BlankConcat(j3, a.cor);
    BlankConcat(j3 + a.cor, sp);
    BlankConcat(j4, a.faixaEtaria);
    BlankConcat(j4 + a.faixaEtaria, sp);
    BlankConcat(j5, a.genero);
  }

  /** The name falls back exactly when the stripped join is empty. */
  lemma FallbackExactlyWhenBlank(a: Attributes)
    ensures Strip(Joined(a)) == [] <==> AllBlank(a)
    ensures !AllBlank(a) ==> Derive(a) == Strip(Joined(a))
  {
    JoinedBlank(a);
  }

  /** Blank attributes between two non-blank ends are not collapsed or
      replaced: when the join starts and ends with a non-space character,
      the name is the join itself, adjacent separators included. */
  lemma InnerBlanksKept(a: Attributes)
    requires a.categoria != [] && !IsSpace(a.categoria[0])
    requires a.genero != [] && !IsSpace(a.genero[|a.genero| - 1])
    ensures Derive(a) == Joined(a)
  {
    var j := Joined(a);
    assert j[0] == a.categoria[0];
    assert j[|j| - 1] == a.genero[|a.genero| - 1];
    StripTrimmed(j);
  }

  /** The worked example: two blank inner attributes leave two double
      spaces and no placeholder text. */
  lemma ExampleWithBlanks()
    ensures Derive(Attributes("Shoes", "Acme", "", "Red", "", "Unisex")) == "Shoes Acme  Red  Unisex"
  {
    var a := Attributes("Shoes", "Acme", "", "Red", "", "Unisex");
    assert Joined(a) == "Shoes Acme  Red  Unisex";
    InnerBlanksKept(a);
  }

  /** Six empty attributes give the fallback, never the empty string. */
  lemma ExampleAllEmpty()
    ensures Derive(Attributes("", "", "", "", "", "")) == Fallback
  {
  }
}

=== FILE: common.dfy ===
/** Shared result and option types for the product-catalog model. */
module Common {

  /** A value that may be absent.  For an id sent as a form text, None
      stands for a missing key or the empty text, the values Python treats
      as false; a form text that is sent, even empty, is Some. */
  datatype Option<+T> = None | Some(value: T) {

    /** The value, or a default when absent */
    function GetOr(default: T): T {
      match this
      case Some(v) => v
      case None => default
    }
  }

  /** The failures an operation of the catalog reports to its caller. */
  datatype Error =
    | Validation    // a required input is missing or empty
    | NotFound      // a referenced row does not exist
    | NotText       // a JSON value that should be a string, or an object, is not one
    | Storage       // SQLite refuses the statement: a column the table lacks, a value it cannot bind

  /** A non-negative integer sqlite3 can bind: a Python int is bound as a
      signed 64-bit value, and a larger one raises OverflowError. */
  type BoundId = k: nat | k < 0x8000_0000_0000_0000

  /** The outcome of an operation that may fail. */
  datatype Result<+T> = Ok(value: T) | Err(error: Error)

  /** A prefix one longer is the prefix plus the next element. */
  lemma SliceSnoc<T>(s: seq<T>, n: nat)
    requires n < |s|
    ensures s[..n + 1] == s[..n] + [s[n]]
  {
  }
}

=== FILE: linker.dfy ===
/** The assignment of custom-field values to products: the single upsert
    of atualizar_valor and the batch of salvar_todos. */
module Linker {
  import opened Common
  import opened Store

  /** The value assigned to a (product, field) pair, if any. */
  function Get(links: map<Slot, nat>, s: Slot): Option<nat> {
    if s in links then Some(links[s]) else None
  }

  /** atualizar_valor: all three ids must be given; then the pair's row is
      updated when it exists and inserted otherwise.  Neither the product,
      the field nor the value is looked up, and nothing checks that the
      value belongs to the field. */
  function Upsert(db: Db, produtoId: Option<BoundId>, campoId: Option<BoundId>, valorId: Option<BoundId>): (r: Result<Db>)
    ensures r.Err? <==> produtoId.None? || campoId.None? || valorId.None?
    ensures r.Err? ==> r.error == Validation
    ensures r.Ok? ==>
      var s := Slot(produtoId.value, campoId.value);
      && r.value.links.Keys == db.links.Keys + {s}
      && r.value.links[s] == valorId.value
      && (forall t :: t in db.links && t != s ==> r.value.links[t] == db.links[t])
      && r.value == db.(links := r.value.links)
    ensures r.Ok? && Valid(db) ==> Valid(r.value)
  {
    if produtoId.None? || campoId.None? || valorId.None? then Err(Validation)
    else
      // The UPDATE of an existing pair and the INSERT of a new one have the
      // same effect on a table keyed by the pair.
      Ok(db.(links := db.links[Slot(produtoId.value, campoId.value) := valorId.value]))
  }

  /** Repeating an upsert changes nothing more. */
  lemma UpsertIdempotent(db: Db, p: Option<BoundId>, c: Option<BoundId>, v: Option<BoundId>)
    requires Upsert(db, p, c, v).Ok?
    ensures Upsert(Upsert(db, p, c, v).value, p, c, v) == Upsert(db, p, c, v)
  {
    var once := Upsert(db, p, c, v).value;
    var twice := Upsert(once, p, c, v).value;
    assert twice.links == once.links;
  }

  /** Two upserts of the same pair leave one row, carrying the later value. */
  lemma UpsertLastWins(db: Db, p: BoundId, c: BoundId, v1: BoundId, v2: BoundId)
    ensures Upsert(Upsert(db, Some(p), Some(c), Some(v1)).value, Some(p), Some(c), Some(v2))
         == Upsert(db, Some(p), Some(c), Some(v2))
  {
    var first := Upsert(db, Some(p), Some(c), Some(v1)).value;
    var both := Upsert(first, Some(p), Some(c), Some(v2)).value;
    var direct := Upsert(db, Some(p), Some(c), Some(v2)).value;
    assert both.links == direct.links;
  }

  /** The upsert accepts a value of another field, and ids with no row. */
  lemma UpsertDoesNotCheckOwnership(db: Db, p: BoundId, c: BoundId, v: BoundId)
    requires c !in db.fields || (v in db.values && db.values[v].campoId != c)
    ensures Upsert(db, Some(p), Some(c), Some(v)).Ok?
    ensures Get(Upsert(db, Some(p), Some(c), Some(v)).value.links, Slot(p, c)) == Some(v)
  {
  }

  /** An id in the salvar_todos body, as the route's truth test and SQLite see it.
      Negative numbers, fractions, non-finite numbers, floats of 2^63 or
      more, and texts that are not a whole number below 2^63 are not part
      of this model. */
  datatype IdArg =
    | Falsy           // absent, null, false, 0, "", [] or {}: Python treats it as false
    | Id(k: BoundId)  // a true value the INTEGER column stores as k: an integer or integral JSON number below 2^63, true, or a numeric text such as "5" or "0"
    | Unbindable      // a non-empty JSON list or object, or an integer outside the signed 64-bit range, which sqlite3 cannot bind

  /** One item of the salvar_todos list: an object with the three ids, or
      any other JSON value, which has no get and makes the route raise. */
  datatype Item = Item(produtoId: IdArg, campoId: IdArg, valorId: IdArg) | NotObject

  /** An item whose three ids pass the route's truth test, so its statement runs. */
  predicate Attempted(e: Item) {
    e.Item? && !e.produtoId.Falsy? && !e.campoId.Falsy? && !e.valorId.Falsy?
  }

  /** An item that makes the route raise, so the whole batch is rolled back. */
  predicate Aborts(e: Item) {
    e.NotObject?
    || (Attempted(e) && (e.produtoId.Unbindable? || e.campoId.Unbindable? || e.valorId.Unbindable?))
  }

  /** What the caller is told when an item aborts the batch. */
  function AbortError(e: Item): Error {
    if e.NotObject? then NotText else Storage
  }

  /** An item the batch writes: all three ids are integers. */
  predicate Complete(e: Item) {
    e.Item? && e.produtoId.Id? && e.campoId.Id? && e.valorId.Id?
  }

  /** An attempted item either is written or aborts the batch, never both. */
  lemma AttemptedSplits(e: Item)
    ensures Attempted(e) && !Aborts(e) <==> Complete(e)
    ensures Complete(e) ==> !Aborts(e)
  {
  }

  /** The value of the last complete item for pair s, scanning from the end. */
  function LastFor(items: seq<Item>, s: Slot): Option<nat> {
    if items == [] then None
    else
      var e := items[|items| - 1];
      if Complete(e) && s == Slot(e.produtoId.k, e.campoId.k) then Some(e.valorId.k)
      else LastFor(items[..|items| - 1], s)
  }

  /** The assignment after a batch: the batch's last word for the pair if it has one. */
  function After(last: Option<nat>, before: Option<nat>): Option<nat> {
    if last.Some? then last else before
  }

  /** salvar_todos: the items in list order, each complete one written with
      insert-or-replace and each with a false id skipped.  An item that is
      not an object, or whose ids pass the truth test but cannot be bound,
      raises inside the transaction: the whole batch is rolled back and the
      first such item decides the error.  Otherwise, for each pair the last
      complete item wins and pairs the batch does not name keep their value. */
  method SaveAll(db: Db, items: seq<Item>) returns (r: Result<Db>)
    ensures r.Err? <==> exists i :: 0 <= i < |items| && Aborts(items[i])
    ensures r.Err? ==> exists i :: 0 <= i < |items| && Aborts(items[i]) && r.error == AbortError(items[i])
                                   && forall j :: 0 <= j < i ==> !Aborts(items[j])
    ensures r.Ok? ==>
      && r.value == db.(links := r.value.links)
      && (forall s :: Get(r.value.links, s) == After(LastFor(items, s), Get(db.links, s)))
      && (Valid(db) ==> Valid(r.value))
  {
    var cur := db;
    var i := 0;
    while i < |items|
      invariant 0 <= i <= |items|
      invariant forall j :: 0 <= j < i ==> !Aborts(items[j])
      invariant cur == db.(links := cur.links)
      invariant forall s :: Get(cur.links, s) == After(LastFor(items[..i], s), Get(db.links, s))
    {
      var e := items[i];
      if Aborts(e) {
        return Err(AbortError(e));
      }
      assert items[..i + 1][..i] == items[..i];
      if Complete(e) {
        cur := Upsert(cur, Some(e.produtoId.k), Some(e.campoId.k), Some(e.valorId.k)).value;
      }
      i := i + 1;
    }
    assert items[..i] == items;
    r := Ok(cur);
  }
}

=== FILE: names.dfy ===
/** The commercial-name columns of products: regeneration of every name
    (atualizar_nome_comercial) and the batch overwrite from the product
    table (salvar_tabela_produtos). */
module Names {
  import opened Common
  import opened Text
  import opened Store
  import CommercialName

  /** The six attributes of a row as the regeneration reads them: NULL becomes "". */
  function AttributesOf(p: Product): CommercialName.Attributes {
    var c := p.columns;
    CommercialName.Attributes(
      c.categoria.GetOr(""), c.marca.GetOr(""), c.modelo.GetOr(""),
      c.cor.GetOr(""), c.faixaEtaria.GetOr(""), c.genero.GetOr(""))
  }

  /** True when q is p with at most its commercial name changed. */
  predicate SameExceptName(p: Product, q: Product) {
    q.columns == p.columns
  }

  /** A row with its commercial name set to the one derived from its attributes. */
  function Renamed(p: Product): Product {
    p.(nomeComercial := Some(CommercialName.Derive(AttributesOf(p))))
  }

  /** Renaming changes only the commercial name, and the new name is never empty. */
  lemma RenamedKeepsRow(p: Product)
    ensures SameExceptName(p, Renamed(p))
    ensures Renamed(p).nomeComercial.Some? && Renamed(p).nomeComercial.value != []
  {
  }

  /** Renaming every row of a table changes only the names, to non-empty ones. */
  lemma AllRenamedKeepRows(before: map<nat, Product>, after: map<nat, Product>)
    requires after.Keys == before.Keys
    requires forall id :: id in after ==> after[id] == Renamed(before[id])
    ensures forall id :: id in after ==>
      && SameExceptName(before[id], after[id])
      && after[id].nomeComercial.Some? && after[id].nomeComercial.value != []
  {
    forall id | id in after
      ensures SameExceptName(before[id], after[id])
      ensures after[id].nomeComercial.Some? && after[id].nomeComercial.value != []
    {
      RenamedKeepsRow(before[id]);
    }
  }

  /** The name depends only on the six attributes, so regenerating twice
      gives what regenerating once gives. */
  lemma RenamedIdempotent(p: Product)
    ensures Renamed(Renamed(p)) == Renamed(p)
  {
  }

  /** A row whose six attributes are all NULL or blank gets the fallback name. */
  lemma RenamedBlank(p: Product)
    requires CommercialName.AllBlank(AttributesOf(p))
    ensures Renamed(p).nomeComercial == Some(CommercialName.Fallback)
  {
  }

  /** A table mid-way through a row-by-row rewrite: the rows in todo are as
      they were before, the others as they are in target. */
  ghost predicate RewrittenOutside<V>(before: map<nat, V>, target: map<nat, V>, now: map<nat, V>, todo: set<nat>) {
    && now.Keys == before.Keys
    && target.Keys == before.Keys
    && forall id :: id in now ==> now[id] == (if id in todo then before[id] else target[id])
  }

  /** Rewriting one pending row moves it out of the pending set. */
  lemma RewriteStep<V>(before: map<nat, V>, target: map<nat, V>, now: map<nat, V>, todo: set<nat>, id: nat)
    requires RewrittenOutside(before, target, now, todo) && id in todo && todo <= before.Keys
    ensures id in target && RewrittenOutside(before, target, now[id := target[id]], todo - {id})
  {
  }

  /** Taking one element out of a set makes it one smaller. */
  lemma RemoveOne<T>(todo: set<T>, x: T)
    requires x in todo
    ensures |todo - {x}| == |todo| - 1
  {
  }

  /** Every row of a table with its derived name. */
  ghost function RenamedAll(ps: map<nat, Product>): (r: map<nat, Product>)
    ensures r.Keys == ps.Keys
  {
    map id | id in ps :: Renamed(ps[id])
  }

  /** The loop of atualizar_nome_comercial over the products read: each row
      gets the name derived from its attributes, and the total counts every row. */
  method RenameRows(ps: map<nat, Product>) returns (out: map<nat, Product>, count: nat)
    ensures count == |ps|
    ensures out.Keys == ps.Keys
    ensures forall id :: id in out ==> out[id] == Renamed(ps[id])
  {
    ghost var target := RenamedAll(ps);
    out := ps;
    var todo := ps.Keys;
    count := 0;
    while todo != {}
      invariant todo <= ps.Keys
      invariant count + |todo| == |ps.Keys|
      invariant RewrittenOutside(ps, target, out, todo)
      decreases |todo|
    {
      var id :| id in todo;
      RewriteStep(ps, target, out, todo, id);
      RemoveOne(todo, id);
      out := out[id := Renamed(out[id])];
      todo := todo - {id};
      count := count + 1;
    }
  }

  /** atualizar_nome_comercial: every product gets the name derived from its
      attributes; nothing else in any row or table changes, and the count
      reported is the number of products. */
  method RegenerateNames(db: Db) returns (r: Db, count: nat)
    ensures count == |db.products|
    ensures r == db.(products := r.products)
    ensures r.products.Keys == db.products.Keys
    ensures forall id :: id in r.products ==> r.products[id] == Renamed(db.products[id])
    ensures forall id :: id in r.products ==>
      && SameExceptName(db.products[id], r.products[id])
      && r.products[id].nomeComercial.Some? && r.products[id].nomeComercial.value != []
  {
    var products;
    products, count := RenameRows(db.products);
    r := db.(products := products);
    AllRenamedKeepRows(db.products, products);
  }

  /** The product id of a salvar_tabela_produtos entry as SQLite binds it in
      "WHERE id = ?"; the route never tests it for truth. */
  datatype RowRef =
    | NoRow            // absent, null or NaN (bound as NULL); an integer from -2^63 to -1, a fraction, an infinity or a float of 2^63 or more; a text that is no such number: matches no row
    | Row(k: BoundId)  // an integer or integral JSON number below 2^63, a boolean, or a numeric text such as "5": matches row k, if any
    | Unbindable       // a JSON list or object, or an integer outside the signed 64-bit range, which sqlite3 cannot bind

  /** One item of the salvar_tabela_produtos list.  nomeComercial is None
      when the JSON value is null or not a string; a missing key reads as "".
      Any item that is not a JSON object has no get and makes the route raise. */
  datatype NameEntry = NameEntry(produtoId: RowRef, nomeComercial: Option<string>) | NotObject

  /** An entry whose stripped name is not blank, so its UPDATE runs. */
  predicate Writes(e: NameEntry) {
    e.NameEntry? && e.nomeComercial.Some? && !IsBlank(e.nomeComercial.value)
  }

  /** An entry that makes the route raise inside the transaction: it is not
      an object, its name has no strip, or its UPDATE cannot bind the id. */
  predicate Aborts(e: NameEntry) {
    e.NotObject? || e.nomeComercial.None? || (Writes(e) && e.produtoId.Unbindable?)
  }

  /** What the caller is told when an entry aborts the batch. */
  function AbortError(e: NameEntry): Error {
    if e.NotObject? || e.nomeComercial.None? then NotText else Storage
  }

  /** The stripped name of the last entry for product id whose name is not
      blank, scanning from the end. */
  function LastName(entries: seq<NameEntry>, id: nat): Option<string> {
    if entries == [] then None
    else
      var e := entries[|entries| - 1];
      if Writes(e) && e.produtoId.Row? && e.produtoId.k == id then Some(Strip(e.nomeComercial.value))
      else LastName(entries[..|entries| - 1], id)
  }

  /** A row after the batch: the batch's last name for it, if any. */
  function NamedBy(p: Product, last: Option<string>): Product {
    if last.Some? then p.(nomeComercial := last) else p
  }

  /** The rows after applying a prefix of the batch. */
  ghost predicate NamedAfter(before: map<nat, Product>, now: map<nat, Product>, done: seq<NameEntry>) {
    && now.Keys == before.Keys
    && forall id :: id in before ==> now[id] == NamedBy(before[id], LastName(done, id))
  }

  /** An entry that names no known product, or only a blank name, changes no row. */
  lemma NameStepSkip(before: map<nat, Product>, now: map<nat, Product>, done: seq<NameEntry>, e: NameEntry)
    requires NamedAfter(before, now, done)
    requires !Writes(e) || !e.produtoId.Row? || e.produtoId.k !in now
    ensures NamedAfter(before, now, done + [e])
  {
    assert (done + [e])[..|done|] == done;
    forall id | id in before ensures LastName(done + [e], id) == LastName(done, id) {
    }
  }

  /** An entry with a non-blank name for a known product overwrites that row's name. */
  lemma NameStepWrite(before: map<nat, Product>, now: map<nat, Product>, done: seq<NameEntry>, e: NameEntry)
    requires NamedAfter(before, now, done)
    requires Writes(e) && e.produtoId.Row? && e.produtoId.k in now
    ensures var id := e.produtoId.k;
      NamedAfter(before, now[id := now[id].(nomeComercial := Some(Strip(e.nomeComercial.value)))], done + [e])
  {
    assert (done + [e])[..|done|] == done;
    forall id | id in before
      ensures LastName(done + [e], id)
           == if id == e.produtoId.k then Some(Strip(e.nomeComercial.value)) else LastName(done, id)
    {
    }
  }

  /** One entry of the batch that does not abort: the stripped name, when
      not blank, is written to the row with that id; "UPDATE ... WHERE id = ?"
      touches no row when the id matches none. */
  function WriteName(products: map<nat, Product>, e: NameEntry): map<nat, Product>
    requires !Aborts(e)
  {
    var nome := Strip(e.nomeComercial.value);
    if nome != [] && e.produtoId.Row? && e.produtoId.k in products then
      products[e.produtoId.k := products[e.produtoId.k].(nomeComercial := Some(nome))]
    else products
  }

  /** Applying one more entry of the batch keeps the rows as the batch's last word says. */
  lemma NameStep(before: map<nat, Product>, now: map<nat, Product>, done: seq<NameEntry>, e: NameEntry)
    requires NamedAfter(before, now, done) && !Aborts(e)
    ensures NamedAfter(before, WriteName(now, e), done + [e])
  {
    if Writes(e) && e.produtoId.Row? && e.produtoId.k in now {
      NameStepWrite(before, now, done, e);
    } else {
      NameStepSkip(before, now, done, e);
    }
  }

  /** salvar_tabela_produtos: each entry's name is stripped and, when not
      blank, written to the product its id matches (none when the id is
      null, not a number, or unknown).  An entry that is not an object, a
      name that is not a string, or an id sqlite3 cannot bind for a name it
      would write raises inside the transaction: the whole batch is rolled
      back and the first such entry decides the error.  The count reported
      is the number of entries, whether or not they changed a row. */
  method SaveNames(db: Db, entries: seq<NameEntry>) returns (r: Result<Db>, reported: nat)
    ensures r.Err? <==> exists i :: 0 <= i < |entries| && Aborts(entries[i])
    ensures r.Err? ==> exists i :: 0 <= i < |entries| && Aborts(entries[i]) && r.error == AbortError(entries[i])
                                   && forall j :: 0 <= j < i ==> !Aborts(entries[j])
    ensures r.Ok? ==>
      && reported == |entries|
      && r.value == db.(products := r.value.products)
      && r.value.products.Keys == db.products.Keys
      && forall id :: id in db.products ==>
           r.value.products[id] == NamedBy(db.products[id], LastName(entries, id))
  {
    var products: map<nat, Product> := db.products;
    var i := 0;
    ghost var done: seq<NameEntry> := [];
    while i < |entries|
      invariant 0 <= i <= |entries|
      invariant done == entries[..i]
      invariant forall j :: 0 <= j < i ==> !Aborts(entries[j])
      invariant NamedAfter(db.products, products, done)
    {
      var e := entries[i];
      if Aborts(e) {
        return Err(AbortError(e)), 0;
      }
      NameStep(db.products, products, done, e);
      products := WriteName(products, e);
      SliceSnoc(entries, i);
      done := done + [e];
      i := i + 1;
    }
    assert done == entries;
    r := Ok(db.(products := products));
    reported := |entries|;
  }

  /** The batch overwrite only ever writes stripped, non-blank names. */
  lemma LastNameIsTrimmed(entries: seq<NameEntry>, id: nat)
    ensures LastName(entries, id).Some? ==>
      LastName(entries, id).value != [] && IsTrimmed(LastName(entries, id).value)
  {
  }
}

=== FILE: schema.dfy ===
/** The schema set-up of init_db: every table is created only if absent,
    and the products table is then widened with any required column it
    lacks, never losing one. */
module Schema {

  /** A table as the schema sees it: its columns in declaration order and
      the column lists that are unique (primary keys and UNIQUE constraints). */
  datatype Table = Table(columns: seq<string>, uniqueKeys: set<seq<string>>)

  /** The database schema: table name to table. */
  type Catalog = map<string, Table>

  const Products := "products"
  const Links := "product_custom_field_values"
  const Fields := "custom_fields"
  const Values := "custom_values"

  /** The products table as the CREATE statement declares it. */
  const ProductsTable := Table(
    ["id", "codigo", "ean", "descricao", "categoria", "marca", "modelo", "cor",
     "faixa_etaria", "genero", "nome_comercial"],
    {["id"]})

  /** The columns the migration guarantees on products, in the order it adds them. */
  const RequiredColumns: seq<string> :=
    ["categoria", "marca", "modelo", "cor", "faixa_etaria", "genero", "nome_comercial"]

  /** The first declaration of the assignment table: a surrogate id plus UNIQUE(produto_id, campo_id). */
  const LinksFirst := Table(["id", "produto_id", "campo_id", "valor_id"],
                            {["id"], ["produto_id", "campo_id"]})
  /** The second declaration of the assignment table: PRIMARY KEY (produto_id, campo_id). */
  const LinksSecond := Table(["produto_id", "campo_id", "valor_id"],
                             {["produto_id", "campo_id"]})
  /** The first declaration of custom_fields, with a tipo column. */
  const FieldsFirst := Table(["id", "nome", "tipo"], {["id"]})
  /** The second declaration of custom_fields, without tipo. */
  const FieldsSecond := Table(["id", "nome"], {["id"]})
  const ValuesTable := Table(["id", "campo_id", "valor"], {["id"]})

  /** The key that makes an assignment unique per product and field. */
  const PairKey: seq<string> := ["produto_id", "campo_id"]

  /** The required columns that are not among the existing ones, in required order. */
  function Missing(existing: seq<string>, required: seq<string>): (r: seq<string>)
    ensures forall c :: c in r ==> c in required && c !in existing
  {
    if required == [] then []
    else (if required[0] in existing then [] else [required[0]]) + Missing(existing, required[1..])
  }

  /** Every required column ends up either among the existing ones or among the missing ones. */
  lemma {:induction false} MissingCovers(existing: seq<string>, required: seq<string>)
    ensures forall c :: c in required ==> c in existing || c in Missing(existing, required)
  {
    if required != [] {
      MissingCovers(existing, required[1..]);
      forall c | c in required ensures c in existing || c in Missing(existing, required) {
        if c != required[0] {
          assert c in required[1..];
        }
      }
    }
  }

  /** Nothing is missing once every required column exists. */
  lemma {:induction false} MissingNone(existing: seq<string>, required: seq<string>)
    requires forall c :: c in required ==> c in existing
    ensures Missing(existing, required) == []
  {
    if required != [] {
      assert required[0] in required;
      forall c | c in required[1..] ensures c in existing {
        assert c in required;
      }
      MissingNone(existing, required[1..]);
    }
  }

  /** Missing, taken one required column at a time from the end. */
  lemma {:induction false} MissingSnoc(existing: seq<string>, required: seq<string>, c: string)
    ensures Missing(existing, required + [c])
         == Missing(existing, required) + (if c in existing then [] else [c])
  {
    if required == [] {
      assert required + [c] == [c];
    } else {
      var head := if required[0] in existing then [] else [required[0]];
      var tail := if c in existing then [] else [c];
      assert (required + [c])[0] == required[0];
      assert (required + [c])[1..] == required[1..] + [c];
      MissingSnoc(existing, required[1..], c);
      calc {
        Missing(existing, required + [c]);
        head + Missing(existing, required[1..] + [c]);
        head + (Missing(existing, required[1..]) + tail);
        (head + Missing(existing, required[1..])) + tail;
        Missing(existing, required) + tail;
      }
    }
  }

  /** The column list after the migration: existing columns, then the missing ones appended. */
  function Migrate(existing: seq<string>): seq<string> {
    existing + Missing(existing, RequiredColumns)
  }

  /** The migration loop of init_db: reads the existing columns once and
      appends each required column that is not among them. */
  method MigrateColumns(existing: seq<string>, required: seq<string>)
    returns (columns: seq<string>, added: seq<string>)
    ensures columns == existing + added
    ensures added == Missing(existing, required)
    ensures forall c :: c in required ==> c in columns
    ensures forall c :: c in added ==> c !in existing
  {
    columns := existing;
    added := [];
    var i := 0;
    while i < |required|
      invariant 0 <= i <= |required|
      invariant columns == existing + added
      invariant added == Missing(existing, required[..i])
    {
      MissingSnoc(existing, required[..i], required[i]);
      assert required[..i + 1] == required[..i] + [required[i]];
      if required[i] !in existing {
        columns := columns + [required[i]];
        added := added + [required[i]];
      }
      i := i + 1;
    }
    assert required[..i] == required;
    MissingCovers(existing, required);
  }

  /** After one migration every required column exists, so a second one adds nothing. */
  lemma MigrateIdempotent(existing: seq<string>)
    ensures forall c :: c in RequiredColumns ==> c in Migrate(existing)
    ensures Missing(Migrate(existing), RequiredColumns) == []
    ensures Migrate(Migrate(existing)) == Migrate(existing)
  {
    var m := Migrate(existing);
    MissingCovers(existing, RequiredColumns);
    MissingNone(m, RequiredColumns);
    assert m + [] == m;
  }

  /** CREATE TABLE IF NOT EXISTS: the table already present wins. */
  function CreateIfAbsent(c: Catalog, name: string, t: Table): (r: Catalog)
    ensures name in r
    ensures name in c ==> r == c
    ensures name !in c ==> r[name] == t && forall n :: n in c ==> n in r && r[n] == c[n]
  {
    if name in c then c else c[name := t]
  }

  /** The first part of init_db: create products if absent, then add the missing columns. */
  function EnsureProducts(c: Catalog): (r: Catalog)
    ensures Products in r && r.Keys == c.Keys + {Products}
    ensures forall n :: n in c && n != Products ==> r[n] == c[n]
  {
    var t := if Products in c then c[Products] else ProductsTable;
    c[Products := t.(columns := Migrate(t.columns))]
  }

  /** The remaining CREATE TABLE IF NOT EXISTS statements, in source order,
      including the second declarations of custom_fields and of the
      assignment table. */
  function CreateCustomTables(c: Catalog): (r: Catalog)
    ensures r.Keys == c.Keys + {Links, Fields, Values}
    ensures forall n :: n in c ==> r[n] == c[n]
    ensures Links !in c ==> r[Links] == LinksFirst
    ensures Fields !in c ==> r[Fields] == FieldsFirst
    ensures Values !in c ==> r[Values] == ValuesTable
  {
    var c1 := CreateIfAbsent(c, Links, LinksFirst);
    var c2 := CreateIfAbsent(c1, Fields, FieldsFirst);
    var c3 := CreateIfAbsent(c2, Fields, FieldsSecond);
    var c4 := CreateIfAbsent(c3, Values, ValuesTable);
    CreateIfAbsent(c4, Links, LinksSecond)
  }

  /** init_db: the products table and its migration, then the custom-attribute tables. */
  function InitDb(c: Catalog): Catalog {
    CreateCustomTables(EnsureProducts(c))
  }

  /** After init_db every required column is on products, the earlier
      columns are still there in their places, and no other table changed. */
  lemma InitDbMigrates(c: Catalog)
    ensures Products in InitDb(c)
    ensures forall col :: col in RequiredColumns ==> col in InitDb(c)[Products].columns
    ensures Products in c ==> c[Products].columns <= InitDb(c)[Products].columns
    ensures forall n :: n in c && n != Products ==> n in InitDb(c) && InitDb(c)[n] == c[n]
  {
    MigrateIdempotent(if Products in c then c[Products].columns else ProductsTable.columns);
  }

  /** The products step changes nothing once products has every required column. */
  lemma EnsureProductsStable(d: Catalog)
    requires Products in d && Missing(d[Products].columns, RequiredColumns) == []
    ensures EnsureProducts(d) == d
  {
    var p := EnsureProducts(d);
    assert d[Products].columns + [] == d[Products].columns;
    assert p.Keys == d.Keys;
  }

  /** The custom-table step changes nothing once its three tables exist. */
  lemma CreateCustomTablesStable(d: Catalog)
    requires Links in d && Fields in d && Values in d
    ensures CreateCustomTables(d) == d
  {
    var q := CreateCustomTables(d);
    assert q.Keys == d.Keys;
  }

  /** init_db may run on every start: running it again changes nothing. */
  lemma InitDbIdempotent(c: Catalog)
    ensures InitDb(InitDb(c)) == InitDb(c)
  {
    var e := EnsureProducts(c);
    MigrateIdempotent(if Products in c then c[Products].columns else ProductsTable.columns);
    var d := CreateCustomTables(e);
    assert d[Products] == e[Products];
    EnsureProductsStable(d);
    CreateCustomTablesStable(d);
  }

  /** On a fresh database the first of each pair of conflicting declarations
      wins, and in either declaration the assignment table is unique per
      (produto_id, campo_id). */
  lemma FirstDeclarationWins(c: Catalog)
    ensures Links !in c ==> InitDb(c)[Links] == LinksFirst
    ensures Fields !in c ==> InitDb(c)[Fields] == FieldsFirst
    ensures PairKey in LinksFirst.uniqueKeys && PairKey in LinksSecond.uniqueKeys
  {
  }

  /** After init_db custom_fields has a tipo column exactly when init_db
      created the table, or the table it found already had one: a table
      left by the second declaration keeps lacking it. */
  lemma FieldsTipoColumn(c: Catalog)
    ensures Fields in InitDb(c)
    ensures "tipo" in InitDb(c)[Fields].columns <==> Fields !in c || "tipo" in c[Fields].columns
    ensures "tipo" !in FieldsSecond.columns
  {
    FieldsAfterInit(c);
    TipoOnlyInFirst();
  }

  /** Only the first declaration of custom_fields has the tipo column. */
  lemma TipoOnlyInFirst()
    ensures "tipo" in FieldsFirst.columns && "tipo" !in FieldsSecond.columns
  {
    assert FieldsFirst.columns[2] == "tipo";
    assert "tipo"[0] != "nome"[0] && |"tipo"| != |"id"|;
  }

  /** init_db leaves custom_fields as it found it, or creates it from the first declaration. */
  lemma FieldsAfterInit(c: Catalog)
    ensures Fields in InitDb(c)
    ensures InitDb(c)[Fields] == if Fields in c then c[Fields] else FieldsFirst
  {
    assert |Fields| != |Products|;
    var e := EnsureProducts(c);
    assert Fields in e <==> Fields in c;
    assert Fields in c ==> e[Fields] == c[Fields];
  }
}

=== FILE: store.dfy ===
/** The relational store of the catalog, abstracted from its tables, and
    the operations on custom fields and their values. */
module Store {
  import opened Common
  import opened Text

  /** The descriptive columns of a products row.  Every column may hold
      NULL, written None; the invoice columns (ncm, cfop, quantities,
      prices, taxes) are not part of this model. */
  datatype Columns = Columns(
    codigo: Option<string>,
    ean: Option<string>,
    descricao: Option<string>,
    categoria: Option<string>,
    marca: Option<string>,
    modelo: Option<string>,
    cor: Option<string>,
    faixaEtaria: Option<string>,
    genero: Option<string>)

  /** A row of products: its descriptive columns and the derived commercial
      name, which only the name operations write. */
  datatype Product = Product(columns: Columns, nomeComercial: Option<string>)

  /** A row of custom_fields (its id is the key of the table). */
  datatype Field = Field(nome: string, tipo: string)

  /** A row of custom_values: one allowed value of the field campoId. */
  datatype Value = Value(campoId: nat, valor: string)

  /** The key of the assignment table: at most one value per product and field. */
  datatype Slot = Slot(produtoId: nat, campoId: nat)

  /** The four tables, keyed by id, and the next id AUTOINCREMENT hands out
      for custom_fields and custom_values.  The assignment table maps each
      (product, field) pair to its valor_id, so a pair has at most one row.
      fieldsHaveTipo says whether custom_fields has its tipo column: it has
      when the first of its two declarations created the table, and lacks
      it when an earlier run left the second one (see Schema.FieldsTipoColumn). */
  datatype Db = Db(
    products: map<nat, Product>,
    fields: map<nat, Field>,
    values: map<nat, Value>,
    links: map<Slot, nat>,
    nextField: nat,
    nextValue: nat,
    fieldsHaveTipo: bool)

  /** The type a field gets when the form does not send one. */
  const DefaultTipo: string := "manual"

  /** Ids handed out are above every id in use, and every value belongs
      to an existing field. */
  ghost predicate Valid(db: Db) {
    && (forall id :: id in db.fields ==> id < db.nextField)
    && (forall id :: id in db.values ==> id < db.nextValue)
    && (forall id :: id in db.values ==> db.values[id].campoId in db.fields)
  }

  /** An empty database as init_db creates it; AUTOINCREMENT starts at 1. */
  function Empty(): (db: Db)
    ensures Valid(db) && db.fieldsHaveTipo
  {
    Db(map[], map[], map[], map[], 1, 1, true)
  }

  /** A form text that Python treats as true: present and not empty. */
  predicate Given(s: Option<string>) {
    s.Some? && s.value != ""
  }

  /** custom_fields (POST): a missing or whitespace-only name is refused;
      otherwise one field is inserted under a fresh id with the stripped
      name and the submitted type, or "manual" when none is sent.  The
      INSERT names the tipo column, so SQLite refuses it when the table lacks it. */
  function CreateField(db: Db, nome: Option<string>, tipo: Option<string>): (r: Result<Db>)
    ensures r.Err? <==> nome.None? || IsBlank(nome.value) || !db.fieldsHaveTipo
    ensures r.Err? ==> r.error == (if nome.None? || IsBlank(nome.value) then Validation else Storage)
    ensures r.Ok? ==>
      var f := r.value.fields;
      && f.Keys == db.fields.Keys + {db.nextField}
      && f[db.nextField].nome != [] && IsTrimmed(f[db.nextField].nome)
      && IsCoreOf(f[db.nextField].nome, nome.value)
      && f[db.nextField].tipo == tipo.GetOr(DefaultTipo)
      && (forall id :: id in db.fields && id != db.nextField ==> f[id] == db.fields[id])
      && r.value == db.(fields := f, nextField := db.nextField + 1)
  {
    if nome.None? || IsBlank(nome.value) then Err(Validation)
    else if !db.fieldsHaveTipo then Err(Storage)
    else
      StripIsCore(nome.value);
      var f := Field(Strip(nome.value), tipo.GetOr(DefaultTipo));
      Ok(db.(fields := db.fields[db.nextField := f], nextField := db.nextField + 1))
  }

  /** On a table with its tipo column, a present, non-blank name is
      accepted; the new field keeps the store valid and adds exactly one row. */
  lemma CreateFieldValid(db: Db, nome: Option<string>, tipo: Option<string>)
    requires Valid(db) && nome.Some? && !IsBlank(nome.value) && db.fieldsHaveTipo
    ensures CreateField(db, nome, tipo).Ok?
    ensures Valid(CreateField(db, nome, tipo).value)
    ensures |CreateField(db, nome, tipo).value.fields| == |db.fields| + 1
  {
    GrowFields(db, CreateField(db, nome, tipo).value);
  }

  /** A store whose fields gain exactly the next id stays valid and has one field more. */
  lemma GrowFields(db: Db, x: Db)
    requires Valid(db)
    requires x == db.(fields := x.fields, nextField := db.nextField + 1)
    requires x.fields.Keys == db.fields.Keys + {db.nextField}
    ensures Valid(x) && |x.fields| == |db.fields| + 1
  {
    assert db.nextField !in db.fields;
    assert |x.fields.Keys| == |db.fields.Keys| + 1;
  }

  /** editar_campo (POST): both name and type must be non-empty (they are
      not stripped); an id with no row is silently left alone.  The UPDATE
      sets tipo, so SQLite refuses it, whatever the id, when the table lacks it. */
  function EditField(db: Db, id: nat, nome: Option<string>, tipo: Option<string>): (r: Result<Db>)
    ensures r.Err? <==> !Given(nome) || !Given(tipo) || !db.fieldsHaveTipo
    ensures r.Err? ==> r.error == (if !Given(nome) || !Given(tipo) then Validation else Storage)
    ensures r.Ok? ==>
      && r.value.fields.Keys == db.fields.Keys
      && (id in db.fields ==> r.value.fields[id] == Field(nome.value, tipo.value))
      && (forall k :: k in db.fields && k != id ==> r.value.fields[k] == db.fields[k])
      && r.value == db.(fields := r.value.fields)
    ensures r.Ok? && Valid(db) ==> Valid(r.value)
  {
    if !Given(nome) || !Given(tipo) then Err(Validation)
    else if !db.fieldsHaveTipo then Err(Storage)
    else if id in db.fields then Ok(db.(fields := db.fields[id := Field(nome.value, tipo.value)]))
    else Ok(db)
  }

  /** custom_field_values (POST): the field must exist and the value must be
      non-empty; the value is inserted under a fresh id, unstripped. */
  function AddValue(db: Db, campoId: nat, valor: Option<string>): (r: Result<Db>)
    ensures r.Err? <==> campoId !in db.fields || !Given(valor)
    ensures r.Err? ==> r.error == (if campoId !in db.fields then NotFound else Validation)
    ensures r.Ok? ==>
      && r.value.values.Keys == db.values.Keys + {db.nextValue}
      && r.value.values[db.nextValue] == Value(campoId, valor.value)
      && (forall k :: k in db.values && k != db.nextValue ==> r.value.values[k] == db.values[k])
      && r.value == db.(values := r.value.values, nextValue := db.nextValue + 1)
    ensures r.Ok? && Valid(db) ==> Valid(r.value) && |r.value.values| == |db.values| + 1
  {
    if campoId !in db.fields then Err(NotFound)
    else if !Given(valor) then Err(Validation)
    else Ok(db.(values := db.values[db.nextValue := Value(campoId, valor.value)],
                nextValue := db.nextValue + 1))
  }

  /** editar_valor (POST): the new text must be non-empty; the value keeps
      its field, and an id with no row is silently left alone. */
  function EditValue(db: Db, id: nat, valor: Option<string>): (r: Result<Db>)
    ensures r.Err? <==> !Given(valor)
    ensures r.Err? ==> r.error == Validation
    ensures r.Ok? ==>
      && r.value.values.Keys == db.values.Keys
      && (id in db.values ==> r.value.values[id] == Value(db.values[id].campoId, valor.value))
      && (forall k :: k in db.values && k != id ==> r.value.values[k] == db.values[k])
      && r.value == db.(values := r.value.values)
    ensures r.Ok? && Valid(db) ==> Valid(r.value)
  {
    if !Given(valor) then Err(Validation)
    else if id in db.values then Ok(db.(values := db.values[id := db.values[id].(valor := valor.value)]))
    else Ok(db)
  }

  /** The ids of the values that belong to field c. */
  ghost function ValueIdsOf(db: Db, c: nat): set<nat> {
    set id | id in db.values && db.values[id].campoId == c
  }

  /** The assignment keys that refer to field c. */
  ghost function SlotsOf(db: Db, c: nat): set<Slot> {
    set s | s in db.links && s.campoId == c
  }

  /** excluir_campo: deletes the field's values, then its assignments, then
      the field, in one transaction.  The id need not exist. */
  function DeleteField(db: Db, c: nat): (r: Db)
    ensures c !in r.fields
    ensures forall id :: id in r.values ==> r.values[id].campoId != c
    ensures forall s :: s in r.links ==> s.campoId != c
    ensures r.fields.Keys == db.fields.Keys - {c}
    ensures r.values.Keys == db.values.Keys - ValueIdsOf(db, c)
    ensures r.links.Keys == db.links.Keys - SlotsOf(db, c)
    ensures forall id :: id in r.fields ==> r.fields[id] == db.fields[id]
    ensures forall id :: id in r.values ==> r.values[id] == db.values[id]
    ensures forall s :: s in r.links ==> r.links[s] == db.links[s]
    ensures r.products == db.products && r.nextField == db.nextField && r.nextValue == db.nextValue
    ensures Valid(db) ==> Valid(r)
  {
    var values := map id | id in db.values && db.values[id].campoId != c :: db.values[id];
    var links := map s | s in db.links && s.campoId != c :: db.links[s];
    db.(values := values, links := links, fields := db.fields - {c})
  }

  /** The cascade removes exactly the field's N values and M assignments
      and the field row itself, if it existed. */
  lemma DeleteFieldCounts(db: Db, c: nat)
    ensures |DeleteField(db, c).values| == |db.values| - |ValueIdsOf(db, c)|
    ensures |DeleteField(db, c).links| == |db.links| - |SlotsOf(db, c)|
    ensures |DeleteField(db, c).fields| == |db.fields| - (if c in db.fields then 1 else 0)
  {
    var r := DeleteField(db, c);
    DeletedValuesCount(db, c, r.values);
    DeletedLinksCount(db, c, r.links);
  }

  lemma DeletedValuesCount(db: Db, c: nat, kept: map<nat, Value>)
    requires kept.Keys == db.values.Keys - ValueIdsOf(db, c)
    ensures |kept| == |db.values| - |ValueIdsOf(db, c)|
  {
    var gone := ValueIdsOf(db, c);
    assert gone <= db.values.Keys;
    DisjointCard(kept.Keys, gone, db.values.Keys);
    assert |kept| == |kept.Keys|;
  }

  lemma DeletedLinksCount(db: Db, c: nat, kept: map<Slot, nat>)
    requires kept.Keys == db.links.Keys - SlotsOf(db, c)
    ensures |kept| == |db.links| - |SlotsOf(db, c)|
  {
    var gone := SlotsOf(db, c);
    assert gone <= db.links.Keys;
    DisjointCard(kept.Keys, gone, db.links.Keys);
    assert |kept| == |kept.Keys|;
  }

  /** A set split into two disjoint parts has the sum of their sizes. */
  lemma DisjointCard<T>(a: set<T>, b: set<T>, u: set<T>)
    requires a * b == {} && a + b == u
    ensures |u| == |a| + |b|
  {
  }
}

=== FILE: text.dfy ===
/** Strings as sequences of characters, and the whitespace stripping that
    the application applies to names. */
module Text {

  /** The ASCII characters that Python's str.strip() removes. */
  predicate IsSpace(c: char) {
    c == ' ' || c == '\t' || c == '\n' || c == '\r' || c == '\U{0B}' || c == '\U{0C}'
    || ('\U{1C}' <= c <= '\U{1F}')
  }

  /** True when every character of s is whitespace (so also for ""). */
  predicate IsBlank(s: string) {
    forall i :: 0 <= i < |s| ==> IsSpace(s[i])
  }

  /** True when s neither starts nor ends with whitespace. */
  predicate IsTrimmed(s: string) {
    s == [] || (!IsSpace(s[0]) && !IsSpace(s[|s| - 1]))
  }

  /** Removes the leading whitespace of s. */
  function TrimStart(s: string): (r: string)
    ensures |r| <= |s| && r == s[|s| - |r|..]
    ensures IsBlank(s[..|s| - |r|])
    ensures r == [] || !IsSpace(r[0])
  {
    if |s| > 0 && IsSpace(s[0]) then
      var r := TrimStart(s[1..]);
      assert s[..|s| - |r|] == [s[0]] + s[1..][..|s| - 1 - |r|];
      assert s[|s| - |r|..] == s[1..][|s| - 1 - |r|..];
      BlankConcat([s[0]], s[1..][..|s| - 1 - |r|]);
      r
    else s
  }

  /** Removes the trailing whitespace of s. */
  function TrimEnd(s: string): (r: string)
    ensures |r| <= |s| && r == s[..|r|]
    ensures IsBlank(s[|r|..])
    ensures r == [] || !IsSpace(r[|r| - 1])
  {
    if |s| > 0 && IsSpace(s[|s| - 1]) then
      var r := TrimEnd(s[..|s| - 1]);
      assert s[|r|..] == s[..|s| - 1][|r|..] + [s[|s| - 1]];
      assert s[..|r|] == s[..|s| - 1][..|r|];
      BlankConcat(s[..|s| - 1][|r|..], [s[|s| - 1]]);
      r
    else s
  }

  /** True when r is s with some whitespace removed from each end. */
  ghost predicate IsCoreOf(r: string, s: string) {
    exists i :: 0 <= i <= |s| - |r| && r == s[i..i + |r|]
                && IsBlank(s[..i]) && IsBlank(s[i + |r|..])
  }

  /** Python's s.strip(): the slice of s left after removing whitespace at both ends. */
  function Strip(s: string): (r: string)
    ensures IsTrimmed(r)
    ensures r == [] <==> IsBlank(s)
  {
    TrimBothTrimmed(s);
    TrimBothBlank(s);
    TrimEnd(TrimStart(s))
  }

  /** Strip removes whitespace at the ends only: its result is a slice of s
      with nothing but whitespace before and after it. */
  lemma StripIsCore(s: string)
    ensures IsCoreOf(Strip(s), s)
  {
    TrimBothCore(s);
  }

  lemma TrimBothTrimmed(s: string)
    ensures IsTrimmed(TrimEnd(TrimStart(s)))
  {
    var t := TrimStart(s);
    var r := TrimEnd(t);
    if r != [] {
      assert r[0] == t[0];
    }
  }

  lemma TrimBothBlank(s: string)
    ensures TrimEnd(TrimStart(s)) == [] <==> IsBlank(s)
  {
    TrimStartBlank(s);
    TrimEndEmpty(TrimStart(s));
  }

  lemma {:induction false} TrimStartBlank(s: string)
    ensures IsBlank(TrimStart(s)) <==> IsBlank(s)
  {
    if |s| > 0 && IsSpace(s[0]) {
      TrimStartBlank(s[1..]);
      if IsBlank(s[1..]) {
        forall k | 0 <= k < |s| ensures IsSpace(s[k]) {
          if k > 0 { assert s[k] == s[1..][k - 1]; }
        }
      }
    }
  }

  lemma {:induction false} TrimEndEmpty(s: string)
    ensures TrimEnd(s) == [] <==> IsBlank(s)
  {
    if |s| > 0 && IsSpace(s[|s| - 1]) {
      TrimEndEmpty(s[..|s| - 1]);
      if IsBlank(s[..|s| - 1]) {
        forall k | 0 <= k < |s| ensures IsSpace(s[k]) {
          if k < |s| - 1 { assert s[k] == s[..|s| - 1][k]; }
        }
      }
    }
  }

  lemma TrimBothCore(s: string)
    ensures IsCoreOf(TrimEnd(TrimStart(s)), s)
  {
    var t := TrimStart(s);
    var r := TrimEnd(t);
    var i := |s| - |t|;
    assert r == s[i..i + |r|];
    assert s[i + |r|..] == t[|r|..];
    assert IsBlank(s[..i]) && IsBlank(s[i + |r|..]);
  }

  /** Stripping leaves an already trimmed string as it is. */
  lemma StripTrimmed(s: string)
    requires IsTrimmed(s)
    ensures Strip(s) == s
  {
  }

  /** Stripping twice is the same as stripping once. */
  lemma StripIdempotent(s: string)
    ensures Strip(Strip(s)) == Strip(s)
  {
    StripTrimmed(Strip(s));
  }

  /** A concatenation is blank exactly when both parts are. */
  lemma BlankConcat(a: string, b: string)
    ensures IsBlank(a + b) <==> IsBlank(a) && IsBlank(b)
  {
    if IsBlank(a + b) {
      assert forall i :: 0 <= i < |a| ==> a[i] == (a + b)[i];
      assert forall i :: 0 <= i < |b| ==> b[i] == (a + b)[|a| + i];
    }
  }
}
